=== FILE: README.md ===
# Landing-page lead form, modelled in Dafny

The landing page's script (`assets/script.js`) wires a phone widget to the
lead-capture forms, validates a form on submit, sends the lead to two CRM
endpoints and drives a few presentational widgets. This project models the
parts that are self-contained logic once the DOM, the widget library and the
network are replaced by plain values:

- **Email** (`email.dfy`): the pattern `^[^\s@]+@[^\s@]+\.[^\s@]+$` on the
  trimmed value. It is read as a concatenation of its five pieces and proved
  equal to a structural description: no whitespace, exactly one `@`, a
  non-empty local part, and a domain with a `.` that is neither its first nor
  its last character.
- **Phone** (`phone.dfy`): the national number (optional `+` and dial code
  stripped, then every non-digit removed) and the four-way keystroke rule of
  the `input` handler: truncate, reject an Indian number starting with 0,
  mark valid, or stay neutral.
- **Validation** (`validation.dfy`): `validate` and `markError`. All earlier
  markers are cleared first. Then four independent checks run in source
  order. The result is the return value, the marker and message on each
  field, and the number of blocking alerts.
- **Submission** (`submission.dfy`): `handleFormSubmit` as a list of
  effects. The effects are `DisableBtn`, `IpLookup`, `PostA`, `PostB`,
  `Redirect`, `Alert` and `RestoreBtn`. The inputs are the form, the
  widget, the page URL and whether each network call settled. A replay of
  the effects on the submit button gives its state at every point.
  `getParam` and the campaign fallbacks, the visitor-IP default and both
  lead records are included. `PostA` carries the NuraCRM lead and `PostB`
  carries the TeleCRM lead.
- **Popup** (`popup.dfy`): the timed popup as a state machine over
  `{open, timerPending, seen, overflowHidden}`. Its events are Load,
  TimerFire, Close, Click (on the backdrop or not), KeyDown and
  TransitionEnd.
- **Faq** (`faq.dfy`): the category switcher.
- Shared pieces: `Text` (the ECMAScript whitespace class, `trim`, digits,
  occurrence counts), `Markers` (the `is-valid`/`is-invalid` classes) and
  `Wrappers` (`Option`).

Three behaviours of the code worth noting:

- An IP lookup that fails aborts the whole submission. Neither post is sent
  (`Submission.IpFailureStopsBothPosts`). The `"Unknown"` default applies
  only when the lookup answers without an address.
- The keystroke rule truncates when the national number has more than 15
  digits, not at 15.
- The e-mail pattern asks for a `.` strictly inside the part after the `@`.
  The `.` need not follow a separate domain segment.

## Model

| member | source | states |
|---|---|---|
| Text.LeadingSpace | assets/script.js:68 | The count of characters `trim` strips from the front. Everything before it is whitespace, and the character after it is not. |
| Text.Trim | assets/script.js:68 | `trim` returns the infix of its input that starts after the leading whitespace. Only whitespace follows it. It neither starts nor ends with whitespace. |
| Text.TrimEmptyIff | assets/script.js:62 | A trimmed value is empty exactly when the input is all whitespace. |
| Text.Digits | assets/script.js:17 | `replace(/\D/g, '')` keeps only ASCII digits and is never longer than its input. It is the identity on an all-digit string. |
| Text.DigitsKeepsDigits | assets/script.js:17 | Every digit of the input survives: each digit occurs in the result exactly as often as in the input. |
| Email.Accepts | assets/script.js:68-70 | The e-mail check tests the pattern on the trimmed value. What it accepts is stated by `Email.AcceptsIffTrimmedWellFormed`. |
| Email.MatchesPatternIff | assets/script.js:69-70 | The pattern accepts a string exactly when it is well formed: no whitespace, exactly one `@`, a non-empty part before it, and a `.` after it that is neither first nor last. |
| Email.AcceptsIffTrimmedWellFormed | assets/script.js:68-70 | The e-mail check accepts a value exactly when its trimmed form is well formed. An accepted value trims to a non-empty string with no whitespace. |
| Email.AcceptsSimpleAddress | assets/script.js:68-70 | `"a@b.co"` is accepted. |
| Email.RejectsMissingDot | assets/script.js:68-70 | `"a@b"` is rejected. |
| Email.RejectsTwoAts | assets/script.js:68-70 | `"a@b@c.com"` is rejected. |
| Email.RejectsBlankLocalPart | assets/script.js:68-70 | `" @b.com"` is rejected: after trimming, nothing precedes the `@`. |
| Phone.StripDialCode | assets/script.js:17 | Stripping `^\+?dial` leaves a suffix of the full number. The number is unchanged when it starts with neither `+dial` nor `dial`. |
| Phone.NationalNumber | assets/script.js:17 | The national number contains only digits and is never longer than the full number. |
| Phone.NationalNumberAfterPlusDial | assets/script.js:17 | For `"+" + dial + rest`, whatever the dial code, the national number is the digits of `rest`. |
| Phone.NationalNumberAfterDial | assets/script.js:17 | For `dial + rest`, whatever the dial code (an empty one included), the national number is the digits of `rest`. |
| Phone.NationalNumberIsDigitSuffix | assets/script.js:17 | The full number's digits are some prefix followed by the national number. |
| Phone.DropLast | assets/script.js:24 | `slice(0, -1)` removes exactly the last character. An empty value stays empty. |
| Phone.Cleared | assets/script.js:19-20 | Each keystroke first removes both validity classes and empties the error text. The value is kept. |
| Phone.OnInput | assets/script.js:13-38 | The value only shrinks to a prefix. Only truncation or rejection changes it. `is-valid` implies 8 to 15 national digits, a widget-valid number, and no Indian leading zero. `is-invalid` implies an Indian number starting with 0 and an emptied field. The error text is empty or the India message. |
| Phone.OnInputRules | assets/script.js:22-38 | The rules in order. Over 15 digits, the field is cleared of marks and loses its last character, nothing else. Else, iso2 `in` with a leading 0 empties the field, marks it invalid and shows the message. Else the value is kept, and `is-valid` is set iff there are at least 8 digits and the widget says valid. |
| Phone.OnInputForgetsPriorMarks | assets/script.js:19-20 | The outcome does not depend on the classes or error text an earlier keystroke left. |
| Phone.TruncateDropsOneCharacter | assets/script.js:23-26 | An over-long number removes exactly the last displayed character and leaves the field unmarked. |
| Validation.MarkError | assets/script.js:102-106 | `markError` always adds `is-invalid`. It shows the message exactly when the field has an error element. |
| Validation.CheckName | assets/script.js:61-65 | The name check keeps `ok` only for a present, non-blank name. It marks only a present blank name and touches no other field or the alerts. |
| Validation.CheckEmail | assets/script.js:67-73 | The e-mail check keeps `ok` only for a present, well-formed trimmed address. It marks only a present malformed one and touches nothing else. |
| Validation.CheckTerms | assets/script.js:75-79 | The terms check keeps `ok` only for a checked box. A missing or unchecked box adds exactly one alert and no marker. |
| Validation.CheckPhone | assets/script.js:81-96 | A present field with no widget or an empty number gets "Phone number required". A widget-invalid number gets "Invalid phone number for selected country". Otherwise the field is marked `is-valid` only. |
| Validation.Validate | assets/script.js:48-100 | `validate` is true iff the name is non-blank, the e-mail is well formed, the terms are accepted, and the phone is present, non-empty and widget-valid. It raises one alert iff the terms are not accepted. Each field's marker and message are given by that field's own check. |
| Validation.ValidateForgetsEarlierMarks | assets/script.js:51-53 | Markers and messages from an earlier run never affect the outcome. |
| Validation.TermsOnlyAlerts | assets/script.js:75-79 | The checkbox never changes any inline marker. |
| Validation.ChecksAreIndependent | assets/script.js:61-96 | A failing name check does not stop the e-mail, terms and phone checks. Their markers and the alert count are the same whatever the name is. |
| Validation.ValidateExplained | assets/script.js:48-99 | A true result leaves no alert and no invalid marker, with the phone marked valid. A false result on a form with all fields present shows an alert or at least one invalid marker. |
| Submission.Lookup | assets/script.js:131 | `searchParams.get` returns nothing iff no pair has the name. Otherwise it returns the value of the first pair with that name. |
| Submission.GetParam | assets/script.js:131 | An absent parameter gives the fallback. Any other result is a non-empty value given for that name in the query. A non-empty fallback never yields an empty result. A first value that is empty gives the fallback, whatever later pairs of that name hold. |
| Submission.GetParamUsesFirstValue | assets/script.js:131 | A parameter whose first occurrence has a non-empty value yields exactly that value. |
| Submission.GetParamMeaning | assets/script.js:131 | `getParam` gives what is stated on the query alone: the value of the first pair with the name, or the fallback when that value is empty or no pair has the name. |
| Submission.ReadCampaign | assets/script.js:133-136 | Source, content, campaign and keyword come from `utm_source`, `utm_content`, `utm_campaign` and `keyword` with their own fallbacks. All four are non-empty, and with no query they are "Google Lead", "Content", "Campaign Name" and "Keyword". |
| Submission.VisitorIp | assets/script.js:151 | The visitor IP is never empty. It is the reply's address when that is present and non-empty, otherwise "Unknown". |
| Submission.FormattedNumber | assets/script.js:140-145 | The number sent to the CRMs is the widget's full number when there is a widget. Without one, it is the trimmed field value, or empty when there is no field. |
| Submission.TrimmedOrEmpty | assets/script.js:154-155 | The trimmed value of the field, or empty when the field is missing. |
| Submission.ContactOf | assets/script.js:139-155 | The contact both leads are built from: the trimmed name and e-mail and the formatted number. |
| Submission.ContactOfValidForm | assets/script.js:139-155 | A lead is built only after validation passed. Its name is non-blank and trimmed, its e-mail is well formed, and its phone is the widget's non-empty number. |
| Submission.BuildLeadA | assets/script.js:157-165 | The NuraCRM record: name twice, e-mail, phone, status "Not contacted", the source and territory "Bengaluru". |
| Submission.BuildLeadB | assets/script.js:177-190 | The TeleCRM record: name, phone, e-mail, source, center "Bengaluru", landing page, campaign, content, keyword and visitor IP. |
| Submission.LeadsAgree | assets/script.js:157-190 | Both CRM records carry the same name, e-mail, phone and source, and the same territory/center. |
| Submission.Exchange | assets/script.js:147-209 | The network part starts with the IP lookup and never touches the button. Its only alert is the generic failure message, and its only navigation goes to `./thankyou.html`. Once the lookup answers, the NuraCRM lead is posted whatever the outcome of that post. The last effect is the redirect when every call settles, and otherwise the failure alert, after the call that rejected. |
| Submission.Bracket | assets/script.js:116-214 | With a button, the trace starts with `DisableBtn`, ends with `RestoreBtn`, and has the body in between. Without one, it is the body alone. |
| Submission.Flow | assets/script.js:116-215 | The handler disables first and restores last, and nothing in between touches the button. After a failed validation there is nothing but the button effects and the terms alert. After a passed one, every alert is the failure message and every navigation goes to the thank-you page. |
| Submission.Submit | assets/script.js:109-216 | `handleFormSubmit` is bracketed by `DisableBtn` and `RestoreBtn` when there is a button. A failed validation emits no lookup, post, redirect or failure alert. For a valid form every alert is the failure message and every navigation goes to the thank-you page. |
| Submission.ReachedCases | assets/script.js:147-206 | The reference progress contains the redirect iff all three calls settle. A failed lookup stops after the lookup. A rejected second post stops after both posts. |
| Submission.ExchangeProgress | assets/script.js:147-209 | The network part performs lookup, first post, second post and redirect in that order, cut after the first call that rejects. It shows exactly one alert, of any message, iff some call rejected, and none otherwise. |
| Submission.PostsProgress | assets/script.js:167-206 | After an answered lookup, the first post is sent. The second follows only if the first settled, and the redirect only if both did. Exactly one alert, of any message, is shown iff a post rejected. |
| Submission.BracketQuiet | assets/script.js:116-215 | Disabling and restoring the button adds no progress step and no alert. |
| Submission.FlowProgress | assets/script.js:121-215 | After a failed validation there is no progress, and the alerts are exactly those `validate` raised. After a successful one, the progress is that of the network part, with exactly one alert iff some call rejected. |
| Submission.SubmitProgress | assets/script.js:121-215 | The same holds for `handleFormSubmit` as a whole: an invalid form shows only the alerts of `validate`, and a valid one the progress of `Submission.Reached`, with exactly one alert iff some call rejected. |
| Submission.RedirectIff | assets/script.js:205-206 | The redirect happens iff the form is valid and all three calls settle. For a valid form every navigation goes to `./thankyou.html`. |
| Submission.PartialSubmission | assets/script.js:167-209 | When the second post rejects after the first settled, both posts were sent. Exactly one alert is shown, and it is the generic failure message. |
| Submission.IpFailureStopsBothPosts | assets/script.js:147-151 | A failed IP lookup sends neither lead. It shows exactly one alert, the generic failure message. |
| Submission.FlowPostsBoth | assets/script.js:157-203 | When the lookup and the first post settle, the NuraCRM lead is posted before the TeleCRM lead. The TeleCRM lead carries the defaulted visitor IP. |
| Submission.FallbackCampaign | assets/script.js:131-136 | With no query string, the posted leads carry "Google Lead" as source, "Campaign Name", "Content" and "Keyword". |
| Submission.BracketedButton | assets/script.js:116-119 | A trace that disables first, restores last and touches the button nowhere else keeps it disabled in between. It leaves the button enabled. |
| Submission.ButtonHeldThenRestored | assets/script.js:116-214 | On every path the button stays disabled ("Submitting...") until the last effect. It ends enabled and labelled "Submit Form". |
| Popup.ClosePopup | assets/script.js:393-397 | `closePopup` hides the popup, unlocks the body and cancels the timer. It leaves the session flag alone. |
| Popup.Step | assets/script.js:383-406 | The flag is never cleared. A transition end while open sets it, and nothing else does. The armed timer firing while the flag is unset opens the popup, and nothing else does. Close, backdrop click and Escape close it and cancel the timer, and nothing but these and a reload hides an open popup. A load with the flag set arms no timer. |
| Popup.RunConsistent | assets/script.js:386-406 | The body is locked exactly while the popup is open. No timer is armed while it is open or once the flag is set. Every event sequence preserves this. |
| Popup.LoadConsistent | assets/script.js:386-406 | Every page load starts in a consistent state. |
| Popup.SeenIsPermanent | assets/script.js:401-403 | Once set, the session flag survives every sequence of events, including reloads. |
| Popup.NeverReopensOnceSeen | assets/script.js:386-391 | Once seen and closed, the popup never opens again in the session. |
| Popup.ShownOncePerSession | assets/script.js:386-403 | Once a transition has ended while the popup was open and it has then been closed, no sequence of events, reloads included, opens it again. |
| Popup.ClosedStaysClosed | assets/script.js:393-397 | After a close, nothing opens the popup again until the next page load. |
| Popup.CloseIdempotent | assets/script.js:393-405 | Closing twice, by any of the three means, is the same as closing once. |
| Popup.OpensAfterDelay | assets/script.js:386-391 | In a fresh session the popup is open once the timer fires, provided nothing closed it earlier. |
| Faq.Deactivate | assets/script.js:417 | Every button loses `active` and keeps its category. |
| Faq.ShowMatching | assets/script.js:421-424 | Each panel is active iff its id equals the target category. Panel ids are unchanged. |
| Faq.Click | assets/script.js:414-425 | After a click, exactly the clicked button is active. Each panel is active iff its id equals the button's `data-category`. Button and panel counts are unchanged. |
| Faq.AtMostOneTrue | assets/script.js:421-424 | Flags no two of which are set count at most one, and exactly one iff some flag is set. |
| Faq.ExactlyOneActiveButton | assets/script.js:417-418 | After a click, the number of active buttons is exactly one. |
| Faq.ClickShowsOnePanel | assets/script.js:421-424 | With distinct panel ids, a click shows exactly one panel when one matches the category and none otherwise. |
| Faq.LastClickWins | assets/script.js:414-425 | The page after two clicks is the page after the second alone. Clicking the same button again changes nothing. |

## Left out

- The intl-tel-input widget (assets/script.js:4-10): its formatting and per-country validity are a foreign library. `getNumber`, `getSelectedCountryData` and `isValidNumber` are inputs (`Phone.Widget`).
- Phone.OnInput: a country is always selected. At line 29 the source reads `selectedCountry.iso2` without the null check of line 16. So with no country selected, a keystroke that reaches line 29 throws. A keystroke with more than 15 national digits returns at line 25 first and is still truncated.
- Phone.StripDialCode: the dial code is matched as a literal string. The source builds a regular expression from it, which agrees only for dial codes without metacharacters. The widget supplies digit strings.
- Phone.DropLast: drops the last Unicode scalar value. JavaScript's `slice` drops the last UTF-16 code unit, and the two differ only for characters outside the Basic Multilingual Plane.
- Submission.Submit: a `getNumber()` that throws is not modelled. This covers the `catch` at lines 143-145 and the throw inside `validate`. The widget always answers.
- Real HTTP: `fetch`, JSON parsing, endpoint URLs, headers and tokens (lines 149-203). Each call is reduced to settled or rejected. The HTTP status is never inspected, as in the source.
- The `async` suspension points: the trace is the order of effects. Other page events that interleave while a call is pending are not modelled.
- The form's two instances and `formType` (lines 113, 219-225): the widget chosen for the form is a parameter.
- Validation.MarkError: each field has its own error element. Two fields sharing one parent, where a later message overwrites an earlier one, are not modelled.
- The real 15-second delay, `sessionStorage`, `alert` and `console`: the delay and the storage are an event and a boolean. `alert` is an effect and `console` is dropped.
- A page without the popup element or the close button: the popup is assumed present, and a close button that is absent simply never produces a Close event.
- Swiper, Bootstrap carousels, AOS, `playActiveVideo`, the testimonial video injection and the hero video handlers (lines 229-354, 358-365, 455-494): library configuration and media playback.
- `syncHeight` (lines 370-379): pixel layout.
- The SEO popup (lines 429-450): it only toggles display and scrolls.

=== FILE: email.dfy ===
/** The e-mail check of the lead form: the pattern `^[^\s@]+@[^\s@]+\.[^\s@]+$`
    applied to the trimmed field value. */
module Email {
  import opened Text

  /** The class `[^\s@]`. */
  predicate PartChar(c: char) {
    !IsSpace(c) && c != '@'
  }

  /** The repetition `[^\s@]+`. */
  predicate PartRun(s: string) {
    |s| > 0 && forall i :: 0 <= i < |s| ==> PartChar(s[i])
  }

  /** `s` splits as run `@` run `.` run, with the `@` at `i` and the `.` at `j`. */
  predicate SplitsAt(s: string, i: int, j: int) {
    && 0 < i < j < |s|
    && s[i] == '@' && s[j] == '.'
    && PartRun(s[..i]) && PartRun(s[i + 1..j]) && PartRun(s[j + 1..])
  }

  /** The pattern, read as concatenation of its five pieces: some choice of
      the `@` and the `.` makes each of the three runs non-empty and free of
      whitespace and `@`. */
  predicate MatchesPattern(s: string) {
    exists i, j | 0 < i < j < |s| :: SplitsAt(s, i, j)
  }

  /** Index of the first `@`, or `|s|` when there is none. */
  function FirstAt(s: string): (k: nat)
    ensures k <= |s|
    ensures k < |s| ==> s[k] == '@'
    ensures forall m :: 0 <= m < k ==> s[m] != '@'
  {
    if s == [] || s[0] == '@' then 0 else 1 + FirstAt(s[1..])
  }

  /** `d` has a `.` that is neither its first nor its last character. */
  predicate InnerDot(d: string) {
    exists j :: 0 < j < |d| - 1 && d[j] == '.'
  }

  /** The structural description of an accepted address: no whitespace,
      exactly one `@`, a non-empty part before it, and a part after it with a
      `.` that is neither first nor last. */
  predicate WellFormed(s: string) {
    && NoSpace(s)
    && Count(s, '@') == 1
    && var k := FirstAt(s);
       0 < k < |s| && InnerDot(s[k + 1..])
  }

  lemma PatternIsWellFormed(s: string, i: int, j: int)
    requires SplitsAt(s, i, j)
    ensures WellFormed(s)
  {
    var local, host, tld := s[..i], s[i + 1..j], s[j + 1..];
    assert s == local + ['@'] + (host + ['.'] + tld);
    forall m | 0 <= m < |s| ensures !IsSpace(s[m]) {
      if m < i {
        assert s[m] == local[m];
      } else if i < m < j {
        assert s[m] == host[m - i - 1];
      } else if j < m {
        assert s[m] == tld[m - j - 1];
      }
    }
    CountAppend(local + ['@'], host + ['.'] + tld, '@');
    CountAppend(local, ['@'], '@');
    var rest := host + ['.'] + tld;
    assert forall m :: 0 <= m < |rest| ==> rest[m] != '@' by {
      forall m | 0 <= m < |rest| ensures rest[m] != '@' {
        if m < |host| {
          assert rest[m] == host[m];
        } else if m > |host| {
          assert rest[m] == tld[m - |host| - 1];
        }
      }
    }
    assert FirstAt(s) == i;
    var d := s[i + 1..];
    assert d[j - i - 1] == '.';
  }

  lemma RunOfPartChars(s: string, a: int, b: int)
    requires 0 <= a < b <= |s|
    requires forall m :: a <= m < b ==> PartChar(s[m])
    ensures PartRun(s[a..b])
  {
    forall m | 0 <= m < b - a ensures PartChar(s[a..b][m]) {
      assert s[a..b][m] == s[a + m];
    }
  }

  lemma WellFormedMatches(s: string)
    requires WellFormed(s)
    ensures MatchesPattern(s)
  {
    var k := FirstAt(s);
    var d := s[k + 1..];
    var j' :| 0 < j' < |d| - 1 && d[j'] == '.';
    var j := k + 1 + j';
    CountOneUnique(s, '@', k);
    assert s[j] == '.';
    assert forall m :: 0 <= m < |s| && m != k ==> PartChar(s[m]);
    RunOfPartChars(s, 0, k);
    RunOfPartChars(s, k + 1, j);
    RunOfPartChars(s, j + 1, |s|);
    assert SplitsAt(s, k, j);
  }

  /** The pattern accepts exactly the well-formed strings. */
  lemma MatchesPatternIff(s: string)
    ensures MatchesPattern(s) <==> WellFormed(s)
  {
    if MatchesPattern(s) {
      var i, j :| SplitsAt(s, i, j);
      PatternIsWellFormed(s, i, j);
    }
    if WellFormed(s) {
      WellFormedMatches(s);
    }
  }

  /** The e-mail check of the form: `emailPattern.test(value.trim())`. */
  predicate Accepts(value: string) {
    MatchesPattern(Trim(value))
  }

  /** Whitespace around the address is ignored; inside it, it is refused. */
  lemma AcceptsIffTrimmedWellFormed(value: string)
    ensures Accepts(value) <==> WellFormed(Trim(value))
    ensures Accepts(value) ==> Trim(value) != [] && NoSpace(Trim(value))
  {
    MatchesPatternIff(Trim(value));
  }

  /** Printable ASCII other than the blank is never whitespace. */
  lemma VisibleAsciiNoSpace(s: string)
    requires forall i :: 0 <= i < |s| ==> 0x21 <= s[i] as int <= 0x7E
    ensures NoSpace(s)
  {
  }

  lemma MatchesSimpleAddress()
    ensures MatchesPattern("a@b.co")
  {
    var s := "a@b.co";
    assert forall m :: 0 <= m < |s| && m != 1 ==> PartChar(s[m]);
    RunOfPartChars(s, 0, 1);
    RunOfPartChars(s, 2, 3);
    RunOfPartChars(s, 4, |s|);
    assert SplitsAt(s, 1, 3);
  }

  lemma AcceptsSimpleAddress()
    ensures Accepts("a@b.co")
  {
    MatchesSimpleAddress();
    VisibleAsciiNoSpace("a@b.co");
    TrimNoSpace("a@b.co");
  }

  lemma RejectsMissingDot()
    ensures !Accepts("a@b")
  {
    VisibleAsciiNoSpace("a@b");
    TrimNoSpace("a@b");
    MatchesPatternIff("a@b");
  }

  /** Two `@` signs anywhere rule a string out. */
  lemma TwoAtsNotWellFormed(s: string, i: nat, j: nat)
    requires i < j < |s| && s[i] == '@' && s[j] == '@'
    ensures !WellFormed(s)
  {
    assert s == s[..j] + s[j..];
    CountAppend(s[..j], s[j..], '@');
    assert s[..j][i] == '@';
    assert s[j..][0] == '@';
  }

  lemma RejectsTwoAts()
    ensures !Accepts("a@b@c.com")
  {
    var s := "a@b@c.com";
    VisibleAsciiNoSpace(s);
    TrimNoSpace(s);
    MatchesPatternIff(s);
    TwoAtsNotWellFormed(s, 1, 3);
  }

  /** A leading `@` leaves the local part empty. */
  lemma LeadingAtNotWellFormed(s: string)
    requires |s| > 0 && s[0] == '@'
    ensures !WellFormed(s)
  {
    assert FirstAt(s) == 0;
  }

  lemma RejectsBlankLocalPart()
    ensures !Accepts(" @b.com")
  {
    var s := " @b.com";
    assert IsSpace(s[0]) && !IsSpace(s[1]);
    assert LeadingSpace(s) == 1;
    var r := Trim(s);
    assert r != [] && r[0] == '@' by {
      assert !AllSpace(s) by { assert !IsSpace(s[1]); }
      TrimEmptyIff(s);
      assert r[0] == s[1];
    }
    MatchesPatternIff(r);
    LeadingAtNotWellFormed(r);
  }
}

=== FILE: faq.dfy ===
/** The FAQ category switcher: clicking a category button makes it the only
    active button and shows the panels whose id equals the button's
    `data-category`. */
module Faq {
  import opened Wrappers

  /** A `.category-btn`: its `data-category` (None when the attribute is
      missing) and whether it has class `active`. */
  datatype CategoryButton = CategoryButton(category: Option<string>, active: bool)

  /** A `.faq-category` panel: its id and whether it has class `active`. */
  datatype Panel = Panel(id: string, active: bool)

  datatype Section = Section(buttons: seq<CategoryButton>, panels: seq<Panel>)

  /** `buttons.forEach(b => b.classList.remove('active'))`. */
  function Deactivate(bs: seq<CategoryButton>): (r: seq<CategoryButton>)
    ensures |r| == |bs|
    ensures forall i :: 0 <= i < |bs| ==> r[i].category == bs[i].category && !r[i].active
  {
    if bs == [] then [] else [bs[0].(active := false)] + Deactivate(bs[1..])
  }

  /** `categories.forEach(cat => cat.classList.toggle('active', cat.id === target))`. */
  function ShowMatching(ps: seq<Panel>, target: Option<string>): (r: seq<Panel>)
    ensures |r| == |ps|
    ensures forall i :: 0 <= i < |ps| ==>
              r[i].id == ps[i].id && (r[i].active <==> target == Some(ps[i].id))
  {
    if ps == [] then []
    else [ps[0].(active := target == Some(ps[0].id))] + ShowMatching(ps[1..], target)
  }

  /** The click handler of button `k`. */
  function Click(s: Section, k: nat): (r: Section)
    requires k < |s.buttons|
    ensures |r.buttons| == |s.buttons| && |r.panels| == |s.panels|
    ensures forall i :: 0 <= i < |s.buttons| ==>
              r.buttons[i].category == s.buttons[i].category && (r.buttons[i].active <==> i == k)
    ensures forall i :: 0 <= i < |s.panels| ==>
              r.panels[i].id == s.panels[i].id
              && (r.panels[i].active <==> s.buttons[k].category == Some(s.panels[i].id))
  {
    var bs := Deactivate(s.buttons);
    Section(bs[k := bs[k].(active := true)], ShowMatching(s.panels, s.buttons[k].category))
  }

  /** How many of the flags are set. */
  function CountTrue(flags: seq<bool>): (n: nat)
    ensures n <= |flags|
    ensures n == 0 <==> forall i :: 0 <= i < |flags| ==> !flags[i]
  {
    if flags == [] then 0
    else
      var n := (if flags[0] then 1 else 0) + CountTrue(flags[1..]);
      assert forall i :: 0 < i < |flags| ==> flags[i] == flags[1..][i - 1];
      n
  }

  /** Which buttons have class `active`. */
  function ActiveButtons(bs: seq<CategoryButton>): seq<bool> {
    seq(|bs|, i requires 0 <= i < |bs| => bs[i].active)
  }

  /** Which panels have class `active`. */
  function ActivePanels(ps: seq<Panel>): seq<bool> {
    seq(|ps|, i requires 0 <= i < |ps| => ps[i].active)
  }

  /** A single set flag counts one. */
  lemma {:induction false} CountTrueOnly(flags: seq<bool>, k: nat)
    requires k < |flags| && flags[k]
    requires forall i :: 0 <= i < |flags| && i != k ==> !flags[i]
    ensures CountTrue(flags) == 1
  {
    if k == 0 {
      assert forall i :: 0 <= i < |flags[1..]| ==> !flags[1..][i];
    } else {
      CountTrueOnly(flags[1..], k - 1);
    }
  }

  /** Flags no two of which are set count at most one, and exactly one when
      some flag is set. */
  lemma AtMostOneTrue(flags: seq<bool>)
    requires forall i, j :: 0 <= i < j < |flags| ==> !(flags[i] && flags[j])
    ensures CountTrue(flags) <= 1
    ensures CountTrue(flags) == 1 <==> exists i :: 0 <= i < |flags| && flags[i]
  {
    if exists i :: 0 <= i < |flags| && flags[i] {
      var k :| 0 <= k < |flags| && flags[k];
      CountTrueOnly(flags, k);
    }
  }

  /** After any click exactly one button is active. */
  lemma ExactlyOneActiveButton(s: Section, k: nat)
    requires k < |s.buttons|
    ensures CountTrue(ActiveButtons(Click(s, k).buttons)) == 1
  {
    CountTrueOnly(ActiveButtons(Click(s, k).buttons), k);
  }

  predicate DistinctIds(ps: seq<Panel>) {
    forall i, j :: 0 <= i < j < |ps| ==> ps[i].id != ps[j].id
  }

  /** With distinct panel ids, a click shows one panel when some panel
      matches the button's category and none otherwise. */
  lemma ClickShowsOnePanel(s: Section, k: nat)
    requires k < |s.buttons| && DistinctIds(s.panels)
    ensures var n := CountTrue(ActivePanels(Click(s, k).panels));
            n <= 1
            && (n == 1 <==> exists i :: 0 <= i < |s.panels|
                                        && s.buttons[k].category == Some(s.panels[i].id))
  {
    var flags := ActivePanels(Click(s, k).panels);
    AtMostOneTrue(flags);
    if exists i :: 0 <= i < |flags| && flags[i] {
      var i :| 0 <= i < |flags| && flags[i];
      assert s.buttons[k].category == Some(s.panels[i].id);
    }
    if exists i :: 0 <= i < |s.panels| && s.buttons[k].category == Some(s.panels[i].id) {
      var i :| 0 <= i < |s.panels| && s.buttons[k].category == Some(s.panels[i].id);
      assert flags[i];
    }
  }

  /** Only the last click matters: the page shows the same thing whatever
      was clicked before. */
  lemma LastClickWins(s: Section, j: nat, k: nat)
    requires j < |s.buttons| && k < |s.buttons|
    ensures Click(Click(s, j), k) == Click(s, k)
  {
    var a := Click(Click(s, j), k);
    var b := Click(s, k);
    assert a.buttons == b.buttons by {
      forall i | 0 <= i < |a.buttons| ensures a.buttons[i] == b.buttons[i] { }
    }
    assert a.panels == b.panels by {
      forall i | 0 <= i < |a.panels| ensures a.panels[i] == b.panels[i] { }
    }
  }
}

=== FILE: markers.dfy ===
/** The validity classes a form input can carry. The script only ever removes
    both and then adds at most one, so the two classes are never present
    together. */
module Markers {

  /** Neither class, `is-valid`, or `is-invalid`. */
  datatype Marker = Unmarked | Valid | Invalid
}

=== FILE: phone.dfy ===
/** The phone field adapter of `initPhone`: the national number derived from
    the widget's full number, and the rule the `input` handler applies after
    every keystroke. The intl-tel-input widget itself is not modelled; what
    its methods return is an input. */
module Phone {
  import opened Wrappers
  import opened Text
  import opened Markers

  /** What `getSelectedCountryData()` reports: the ISO 3166 code in lower
      case and the dial code without `+`. */
  datatype Country = Country(iso2: string, dialCode: string)

  /** The widget as the handlers see it: `getNumber()`,
      `getSelectedCountryData()` and `isValidNumber()`. */
  datatype Widget = Widget(number: string, country: Country, valid: bool)

  /** More national digits than this and the last keystroke is undone. */
  const MaxDigits := 15
  /** Fewer national digits than this and the field is never marked valid. */
  const MinDigits := 8
  const LeadingZeroMessage := "Indian numbers cannot start with 0"

  /** `replace(new RegExp('^\\+?' + dial), '')`: the pattern tries the
      optional `+` first and falls back to matching without it; the dial
      code is matched literally. */
  function StripDialCode(full: string, dial: string): (r: string)
    ensures |r| <= |full| && r == full[|full| - |r|..]
    ensures !IsPrefix(dial, full) && !IsPrefix("+" + dial, full) ==> r == full
  {
    if IsPrefix("+" + dial, full) then full[|dial| + 1..]
    else if IsPrefix(dial, full) then full[|dial|..]
    else full
  }

  /** The national number: dial code stripped, then every non-digit removed. */
  function NationalNumber(full: string, dial: string): (r: string)
    ensures AllDigits(r)
    ensures |r| <= |full|
  {
    Digits(StripDialCode(full, dial))
  }

  /** A number written as `+`, dial code, rest has the digits of the rest as
      its national number. */
  lemma NationalNumberAfterPlusDial(dial: string, rest: string)
    ensures NationalNumber("+" + dial + rest, dial) == Digits(rest)
  {
    var full := "+" + dial + rest;
    assert full[..|"+" + dial|] == "+" + dial;
    assert full[|dial| + 1..] == rest;
  }

  /** So does a number written as dial code, rest (no `+`). */
  lemma NationalNumberAfterDial(dial: string, rest: string)
    ensures NationalNumber(dial + rest, dial) == Digits(rest)
  {
    var full := dial + rest;
    assert full[..|dial|] == dial;
    if IsPrefix("+" + dial, full) {
      PlusShiftedPrefix(dial, rest, |dial|);
      assert full[|dial| + 1..] == rest[1..];
      assert rest == [rest[0]] + rest[1..];
      DigitsAppend([rest[0]], rest[1..]);
    } else {
      assert full[|dial|..] == rest;
    }
  }

  /** When `"+" + dial` is a prefix of `dial + rest`, each character of
      `dial` equals the one before it, the first being `+`: so `dial` is all
      `+` and so is the character after it, the first of `rest`. */
  lemma {:induction false} PlusShiftedPrefix(dial: string, rest: string, i: nat)
    requires IsPrefix("+" + dial, dial + rest) && i <= |dial|
    ensures (dial + rest)[i] == '+'
  {
    var full := dial + rest;
    assert full[i] == full[..|dial| + 1][i] == ("+" + dial)[i];
    if i > 0 {
      PlusShiftedPrefix(dial, rest, i - 1);
      assert ("+" + dial)[i] == dial[i - 1] == full[i - 1];
    }
  }

  /** Every digit of the national number is a digit of the full number: the
      full number's digits are some prefix followed by the national number. */
  lemma NationalNumberIsDigitSuffix(full: string, dial: string)
    ensures exists p :: Digits(full) == p + NationalNumber(full, dial)
  {
    var r := StripDialCode(full, dial);
    var cut := full[..|full| - |r|];
    assert full == cut + r;
    DigitsAppend(cut, r);
    assert Digits(full) == Digits(cut) + NationalNumber(full, dial);
  }

  /** The phone input and its error element (None when the page has none). */
  datatype PhoneField = PhoneField(value: string, marker: Marker, error: Option<string>)

  /** The four ways a keystroke can end. */
  datatype Decision = Truncate | RejectLeadingZero | MarkValid | Neutral

  datatype Keystroke = Keystroke(decision: Decision, field: PhoneField)

  /** `s.slice(0, -1)`: the last character dropped; the empty string stays empty. */
  function DropLast(s: string): (r: string)
    ensures s == [] ==> r == []
    ensures s != [] ==> r + [s[|s| - 1]] == s
  {
    if s == [] then [] else s[..|s| - 1]
  }

  predicate StartsWithZero(n: string) {
    |n| > 0 && n[0] == '0'
  }

  /** The first thing every keystroke does: both validity classes removed and
      the error text emptied. */
  function Cleared(f: PhoneField): (c: PhoneField)
    ensures c.value == f.value && c.marker == Unmarked
    ensures c.error.Some? == f.error.Some? && (c.error.Some? ==> c.error.value == "")
  {
    f.(marker := Unmarked, error := if f.error.Some? then Some("") else None)
  }

  /** The `input` handler. A country is always selected: the handler reads
      its `iso2` without a null check. */
  function OnInput(w: Widget, f: PhoneField): (r: Keystroke)
    ensures |r.field.value| <= |f.value| && IsPrefix(r.field.value, f.value)
    ensures r.field.error.Some? == f.error.Some?
    ensures r.field.error.Some? ==> r.field.error.value in {"", LeadingZeroMessage}
    ensures r.field.marker == Valid ==>
              var n := NationalNumber(w.number, w.country.dialCode);
              MinDigits <= |n| <= MaxDigits && w.valid
              && !(w.country.iso2 == "in" && StartsWithZero(n))
    ensures r.field.marker == Invalid ==>
              r.field.value == [] && w.country.iso2 == "in"
              && StartsWithZero(NationalNumber(w.number, w.country.dialCode))
    ensures r.field.value != f.value ==> r.decision == Truncate || r.decision == RejectLeadingZero
  {
    var n := NationalNumber(w.number, w.country.dialCode);
    var c := Cleared(f);
    if |n| > MaxDigits then
      Keystroke(Truncate, c.(value := DropLast(c.value)))
    else if w.country.iso2 == "in" && StartsWithZero(n) then
      Keystroke(RejectLeadingZero,
                c.(value := [], marker := Invalid,
                   error := if c.error.Some? then Some(LeadingZeroMessage) else None))
    else if |n| >= MinDigits && w.valid then
      Keystroke(MarkValid, c.(marker := Valid))
    else
      Keystroke(Neutral, c)
  }

  /** The three rules, in order, as the visible state after the keystroke. */
  lemma OnInputRules(w: Widget, f: PhoneField)
    ensures var n := NationalNumber(w.number, w.country.dialCode);
            var r := OnInput(w, f).field;
            && (|n| > MaxDigits ==> r == Cleared(f).(value := DropLast(f.value)))
            && (|n| <= MaxDigits && w.country.iso2 == "in" && StartsWithZero(n) ==>
                  r.value == [] && r.marker == Invalid
                  && (f.error.Some? ==> r.error == Some(LeadingZeroMessage)))
            && (|n| <= MaxDigits && !(w.country.iso2 == "in" && StartsWithZero(n)) ==>
                  r.value == f.value && r.error == Cleared(f).error
                  && (r.marker == Valid <==> |n| >= MinDigits && w.valid)
                  && r.marker != Invalid)
  {
  }

  /** The outcome does not depend on the classes or error text left by an
      earlier keystroke. */
  lemma OnInputForgetsPriorMarks(w: Widget, f: PhoneField, m: Marker, e: Option<string>)
    requires e.Some? == f.error.Some?
    ensures OnInput(w, f.(marker := m, error := e)) == OnInput(w, f)
  {
  }

  /** An over-long number only loses its last displayed character: one
      keystroke undone. */
  lemma TruncateDropsOneCharacter(w: Widget, f: PhoneField)
    requires |NationalNumber(w.number, w.country.dialCode)| > MaxDigits
    requires f.value != []
    ensures var r := OnInput(w, f).field;
            |r.value| + 1 == |f.value| && r.value + [f.value[|f.value| - 1]] == f.value
            && r.marker == Unmarked
  {
  }
}

=== FILE: popup.dfy ===
/** The timed popup: a 15-second timer armed at page load opens the popup
    unless the session flag `popupSeen` is set; the close button, a click on
    the backdrop and the Escape key close it and cancel the timer; the flag
    is set when a transition ends while the popup is open. Time is not
    modelled: the timer firing is an event. */
module Popup {

  /** `open`: the popup has class `open`. `timerPending`: the timeout is
      armed and has not fired. `seen`: the session flag. `overflowHidden`:
      the page body does not scroll. */
  datatype State = State(open: bool, timerPending: bool, seen: bool, overflowHidden: bool)

  datatype Event =
    | Load                   // the script runs: timer armed, and cancelled if the flag is set
    | TimerFire              // the 15-second timeout elapses
    | Close                  // the close button
    | Click(onBackdrop: bool) // a click on the popup; closes only when its target is the backdrop
    | KeyDown(key: string)   // any key on the document; closes only on Escape
    | TransitionEnd          // a CSS transition of the popup finished

  /** The events that call `closePopup`. */
  predicate Closes(e: Event) {
    e == Close || e == Click(true) || e == KeyDown("Escape")
  }

  /** `closePopup()`: class removed, body scrolls again, timer cleared. */
  function ClosePopup(s: State): (r: State)
    ensures !r.open && !r.timerPending && !r.overflowHidden && r.seen == s.seen
  {
    s.(open := false, overflowHidden := false, timerPending := false)
  }

  function Step(s: State, e: Event): (r: State)
    // the session flag is never cleared
    ensures s.seen ==> r.seen
    // it is set by a transition ending while the popup is open, and only then
    ensures !s.seen && r.seen ==> e == TransitionEnd && s.open
    ensures e == TransitionEnd && s.open ==> r.seen
    // the popup opens when the armed timer fires with the flag unset, and only then
    ensures !s.open && r.open ==> e == TimerFire && s.timerPending && !s.seen
    ensures e == TimerFire && s.timerPending && !s.seen ==> r.open
    ensures Closes(e) ==> !r.open && !r.timerPending && !r.overflowHidden
    // nothing but the three closers and a reload hides an open popup
    ensures s.open && !r.open ==> Closes(e) || e == Load
    // a load with the flag set leaves no timer armed
    ensures e == Load ==> !r.open && (r.timerPending <==> !s.seen)
  {
    match e
    case Load => State(false, !s.seen, s.seen, false)
    case TimerFire =>
      if !s.timerPending then s
      else if s.seen then s.(timerPending := false)
      else s.(timerPending := false, open := true, overflowHidden := true)
    case Close => ClosePopup(s)
    case Click(onBackdrop) => if onBackdrop then ClosePopup(s) else s
    case KeyDown(key) => if key == "Escape" then ClosePopup(s) else s
    case TransitionEnd => if s.open then s.(seen := true) else s
  }

  /** The state after the events of `evs`, in order. */
  function Run(s: State, evs: seq<Event>): State
    decreases |evs|
  {
    if evs == [] then s else Run(Step(s, evs[0]), evs[1..])
  }

  /** What holds after every load: the body is locked exactly while the
      popup is open, an open popup has no timer armed, and once the flag is
      set no timer is armed either. */
  predicate Consistent(s: State) {
    && (s.open <==> s.overflowHidden)
    && (s.open ==> !s.timerPending)
    && (s.seen ==> !s.timerPending)
  }

  lemma {:induction false} RunConsistent(s: State, evs: seq<Event>)
    requires Consistent(s)
    ensures Consistent(Run(s, evs))
    decreases |evs|
  {
    if evs != [] {
      RunConsistent(Step(s, evs[0]), evs[1..]);
    }
  }

  /** Every load yields a consistent state. */
  lemma LoadConsistent(s: State)
    ensures Consistent(Step(s, Load))
  {
  }

  /** The session flag survives every sequence of events, reloads included. */
  lemma {:induction false} SeenIsPermanent(s: State, evs: seq<Event>)
    requires s.seen
    ensures Run(s, evs).seen
    decreases |evs|
  {
    if evs != [] {
      SeenIsPermanent(Step(s, evs[0]), evs[1..]);
    }
  }

  /** Once the popup has been seen and is closed, it never opens again in the
      session, whatever happens. */
  lemma {:induction false} NeverReopensOnceSeen(s: State, evs: seq<Event>)
    requires s.seen && !s.open
    ensures !Run(s, evs).open && Run(s, evs).seen
    decreases |evs|
  {
    if evs != [] {
      NeverReopensOnceSeen(Step(s, evs[0]), evs[1..]);
    }
  }

  /** The popup is shown at most once per session: once a transition has
      ended while it was open and it has been closed, no sequence of events,
      reloads included, opens it again. */
  lemma ShownOncePerSession(s: State, e: Event, evs: seq<Event>)
    requires s.open && Closes(e)
    ensures !Run(Step(Step(s, TransitionEnd), e), evs).open
  {
    NeverReopensOnceSeen(Step(Step(s, TransitionEnd), e), evs);
  }

  /** After a close, no later event opens the popup until the page loads
      again: the timer is gone. */
  lemma {:induction false} ClosedStaysClosed(s: State, evs: seq<Event>)
    requires !s.open && !s.timerPending
    requires forall i :: 0 <= i < |evs| ==> evs[i] != Load
    ensures !Run(s, evs).open
    decreases |evs|
  {
    if evs != [] {
      ClosedStaysClosed(Step(s, evs[0]), evs[1..]);
    }
  }

  /** Closing twice is closing once. */
  lemma CloseIdempotent(s: State, e: Event, e': Event)
    requires Closes(e) && Closes(e')
    ensures Step(Step(s, e), e') == Step(s, e)
  {
  }

  /** Events that neither close, open nor reload. */
  predicate Inert(e: Event) {
    e == TransitionEnd || e == Click(false) || (e.KeyDown? && e.key != "Escape")
  }

  /** In a fresh session, the popup is open once the timer fires, provided
      nothing closed it before. */
  lemma OpensAfterDelay(pre: seq<Event>)
    requires forall i :: 0 <= i < |pre| ==> Inert(pre[i])
    ensures Run(Step(State(false, false, false, false), Load), pre + [TimerFire]).open
  {
    var s := Step(State(false, false, false, false), Load);
    InertKeepsArmed(s, pre);
    RunAppend(s, pre, [TimerFire]);
  }

  lemma {:induction false} InertKeepsArmed(s: State, evs: seq<Event>)
    requires !s.open && s.timerPending && !s.seen
    requires forall i :: 0 <= i < |evs| ==> Inert(evs[i])
    ensures Run(s, evs) == s
    decreases |evs|
  {
    if evs != [] {
      InertKeepsArmed(Step(s, evs[0]), evs[1..]);
    }
  }

  lemma {:induction false} RunAppend(s: State, x: seq<Event>, y: seq<Event>)
    ensures Run(s, x + y) == Run(Run(s, x), y)
    decreases |x|
  {
    if x == [] {
      assert x + y == y;
    } else {
      assert (x + y)[1..] == x[1..] + y;
      RunAppend(Step(s, x[0]), x[1..], y);
    }
  }
}

=== FILE: submission.dfy ===
/** `handleFormSubmit` as a trace of effects. The browser, the three HTTP
    calls and the navigation are not run: the form, the page URL and whether
    each network call settled are inputs, and the result is the list of
    effects the handler performs, in order. */
module Submission {
  import opened Wrappers
  import opened Text
  import Email
  import Phone
  import Validation

  /** `url.searchParams`: name/value pairs in the order of the query string. */
  type Query = seq<(string, string)>

  /** `searchParams.get(name)`: the value of the first pair with that name. */
  function Lookup(q: Query, name: string): (r: Option<string>)
    ensures r.None? <==> forall i :: 0 <= i < |q| ==> q[i].0 != name
    ensures r.Some? ==> exists i :: 0 <= i < |q| && q[i] == (name, r.value)
                                    && forall k :: 0 <= k < i ==> q[k].0 != name
  {
    if q == [] then None
    else if q[0].0 == name then Some(q[0].1)
    else
      var r := Lookup(q[1..], name);
      if r.Some? then
        var i :| 0 <= i < |q[1..]| && q[1..][i] == (name, r.value)
                 && forall k :: 0 <= k < i ==> q[1..][k].0 != name;
        assert q[i + 1] == (name, r.value);
        r
      else r
  }

  /** `getParam(param, fallback)`: `searchParams.get(param) || fallback`; an
      absent parameter and an empty one both give the fallback. */
  function GetParam(q: Query, name: string, fallback: string): (r: string)
    ensures (forall i :: 0 <= i < |q| ==> q[i].0 != name) ==> r == fallback
    ensures r != fallback ==> r != "" && exists i :: 0 <= i < |q| && q[i] == (name, r)
    ensures fallback != "" ==> r != ""
    // the first value of the name is the one read; an empty one gives the fallback
    ensures forall i :: (0 <= i < |q| && q[i] == (name, "")
                         && forall k :: 0 <= k < i ==> q[k].0 != name) ==> r == fallback
  {
    var v := Lookup(q, name);
    if v.Some? && v.value != "" then
      var j :| 0 <= j < |q| && q[j] == (name, v.value)
               && forall k :: 0 <= k < j ==> q[k].0 != name;
      v.value
    else fallback
  }

  /** A parameter given with a non-empty value is used as given, when it is
      the first of its name. */
  lemma GetParamUsesFirstValue(q: Query, i: nat, name: string, fallback: string)
    requires i < |q| && q[i].0 == name && q[i].1 != ""
    requires forall k :: 0 <= k < i ==> q[k].0 != name
    ensures GetParam(q, name, fallback) == q[i].1
  {
    var v := Lookup(q, name);
    var j :| 0 <= j < |q| && q[j] == (name, v.value)
             && forall k :: 0 <= k < j ==> q[k].0 != name;
    assert j == i;
  }

  /** What `searchParams.get(name) || fallback` reads, stated on the query
      itself: the first pair with the name decides; an empty value there, or
      no such pair, gives the fallback. */
  predicate ParamValue(q: Query, name: string, fallback: string, v: string) {
    && ((forall i :: 0 <= i < |q| ==> q[i].0 != name) ==> v == fallback)
    && forall i :: (0 <= i < |q| && q[i].0 == name
                    && forall k :: 0 <= k < i ==> q[k].0 != name) ==>
                     v == if q[i].1 != "" then q[i].1 else fallback
  }

  lemma GetParamMeaning(q: Query, name: string, fallback: string)
    ensures ParamValue(q, name, fallback, GetParam(q, name, fallback))
  {
    forall i | 0 <= i < |q| && q[i].0 == name && (forall k :: 0 <= k < i ==> q[k].0 != name)
      ensures GetParam(q, name, fallback) == if q[i].1 != "" then q[i].1 else fallback
    {
      if q[i].1 != "" {
        GetParamUsesFirstValue(q, i, name, fallback);
      } else {
        assert q[i] == (name, "");
      }
    }
  }

  const SourceFallback := "Google Lead"
  const ContentFallback := "Content"
  const CampaignFallback := "Campaign Name"
  const KeywordFallback := "Keyword"

  /** The four tracking values read from the page URL. */
  datatype Campaign = Campaign(source: string, content: string, campaign: string, keyword: string)

  function ReadCampaign(q: Query): (c: Campaign)
    ensures c.source != "" && c.content != "" && c.campaign != "" && c.keyword != ""
    ensures q == [] ==> c == Campaign(SourceFallback, ContentFallback, CampaignFallback, KeywordFallback)
    // each value comes from its own parameter
    ensures ParamValue(q, "utm_source", SourceFallback, c.source)
    ensures ParamValue(q, "utm_content", ContentFallback, c.content)
    ensures ParamValue(q, "utm_campaign", CampaignFallback, c.campaign)
    ensures ParamValue(q, "keyword", KeywordFallback, c.keyword)
  {
    GetParamMeaning(q, "utm_source", SourceFallback);
    GetParamMeaning(q, "utm_content", ContentFallback);
    GetParamMeaning(q, "utm_campaign", CampaignFallback);
    GetParamMeaning(q, "keyword", KeywordFallback);
    Campaign(GetParam(q, "utm_source", SourceFallback),
             GetParam(q, "utm_content", ContentFallback),
             GetParam(q, "utm_campaign", CampaignFallback),
             GetParam(q, "keyword", KeywordFallback))
  }

  /** `ipData.ip || "Unknown"`. */
  function VisitorIp(ip: Option<string>): (r: string)
    ensures r != ""
    ensures ip.Some? && ip.value != "" ==> r == ip.value
    ensures ip.None? || ip.value == "" ==> r == "Unknown"
  {
    if ip.Some? && ip.value != "" then ip.value else "Unknown"
  }

  /** `field?.value.trim() || ""`. */
  function TrimmedOrEmpty(f: Option<Validation.Field>): string {
    if f.Some? then Trim(f.value.value) else ""
  }

  /** The number sent to both CRMs: the widget's full number, or the trimmed
      field value when there is no widget. */
  function FormattedNumber(iti: Option<Phone.Widget>, phone: Option<Validation.Field>): (r: string)
    ensures iti.Some? ==> r == iti.value.number
    ensures iti.None? && phone.None? ==> r == ""
    ensures iti.None? && phone.Some? ==> r == Trim(phone.value.value)
    ensures iti.None? && phone.Some? ==> r == [] || (!IsSpace(r[0]) && !IsSpace(r[|r| - 1]))
    ensures iti.None? && phone.Some? && AllSpace(phone.value.value) ==> r == ""
  {
    if iti.Some? then iti.value.number
    else if phone.Some? then
      TrimEmptyIff(phone.value.value);
      TrimmedOrEmpty(phone)
    else ""
  }

  /** The record posted to the first CRM (NuraCRM). */
  datatype LeadA = LeadA(
    firstName: string, leadName: string, email: string, mobileNo: string,
    status: string, source: string, territory: string)

  /** The `fields` record posted to the second CRM (TeleCRM). */
  datatype LeadB = LeadB(
    name: string, phone: string, email: string, leadSource: string, center: string,
    landingPage: string, campaignName: string, adName: string, keyword: string,
    ipAddress: string)

  /** What both leads are built from. */
  datatype Contact = Contact(name: string, email: string, phone: string)

  function BuildLeadA(c: Contact, utm: Campaign): LeadA {
    LeadA(c.name, c.name, c.email, c.phone, "Not contacted", utm.source, "Bengaluru")
  }

  function BuildLeadB(c: Contact, utm: Campaign, landingPage: string, ip: string): LeadB {
    LeadB(c.name, c.phone, c.email, utm.source, "Bengaluru", landingPage,
          utm.campaign, utm.content, utm.keyword, ip)
  }

  /** The two CRMs receive the same contact and the same source. */
  lemma LeadsAgree(c: Contact, utm: Campaign, landingPage: string, ip: string)
    ensures var a := BuildLeadA(c, utm);
            var b := BuildLeadB(c, utm, landingPage, ip);
            a.firstName == a.leadName == b.name && a.email == b.email
            && a.mobileNo == b.phone && a.source == b.leadSource
            && a.territory == b.center
  {
  }

  /** The page: its query string and `origin + pathname`. */
  datatype Page = Page(query: Query, landingPage: string)

  /** How the IP lookup (fetch and JSON body) ended. */
  datatype IpReply = IpFailed | IpAnswered(ip: Option<string>)

  /** Whether each network call settled; `false` is a rejected promise. The
      HTTP status is never inspected, so any response counts as settled. */
  datatype Replies = Replies(ip: IpReply, postA: bool, postB: bool)

  const ThankYouPage := "./thankyou.html"
  const FailureAlert := "There was a problem submitting the form. Please try again."

  datatype Effect =
    | DisableBtn            // disabled, labelled "Submitting..."
    | IpLookup
    | PostA(a: LeadA)
    | PostB(b: LeadB)
    | Redirect(url: string)
    | Alert(message: string)
    | RestoreBtn            // enabled, labelled "Submit Form"

  /** Effects that neither disable nor restore the button. */
  predicate NoButtonEffects(t: seq<Effect>) {
    forall i :: 0 <= i < |t| ==> !t[i].DisableBtn? && !t[i].RestoreBtn?
  }

  /** Every alert of `t` shows `message`. */
  predicate AlertsOnly(t: seq<Effect>, message: string) {
    forall i :: 0 <= i < |t| && t[i].Alert? ==> t[i].message == message
  }

  /** Every navigation of `t` goes to `url`. */
  predicate RedirectsOnlyTo(t: seq<Effect>, url: string) {
    forall i :: 0 <= i < |t| && t[i].Redirect? ==> t[i].url == url
  }

  /** The part of the handler inside `try … catch`: IP lookup, the two posts
      and the redirect, stopped by the first call that rejects. */
  function Exchange(c: Contact, utm: Campaign, landingPage: string, net: Replies): (t: seq<Effect>)
    ensures NoButtonEffects(t)
    ensures |t| >= 2 && t[0] == IpLookup
    // the only message is the generic failure, the only page the thank-you page
    ensures AlertsOnly(t, FailureAlert) && RedirectsOnlyTo(t, ThankYouPage)
    // the first lead is sent, whatever its post's outcome, once the lookup answers
    ensures net.ip.IpAnswered? ==> t[1] == PostA(BuildLeadA(c, utm))
    // the `catch` alert comes last, after the call that rejected
    ensures t[|t| - 1] == if AllSettle(net) then Redirect(ThankYouPage) else Alert(FailureAlert)
  {
    [IpLookup] +
    match net.ip
    case IpFailed => [Alert(FailureAlert)]
    case IpAnswered(ip) =>
      [PostA(BuildLeadA(c, utm))] +
      if !net.postA then [Alert(FailureAlert)]
      else
        [PostB(BuildLeadB(c, utm, landingPage, VisitorIp(ip)))] +
        if !net.postB then [Alert(FailureAlert)]
        else [Redirect(ThankYouPage)]
  }

  /** The alerts `validate` showed (one for an unchecked terms box). */
  function TermsAlerts(n: nat): (t: seq<Effect>)
    ensures |t| == n && forall i :: 0 <= i < n ==> t[i] == Alert(Validation.TermsAlert)
  {
    seq(n, _ => Alert(Validation.TermsAlert))
  }

  /** The two `if (submitBtn)` blocks around everything else. */
  function Bracket(hasButton: bool, body: seq<Effect>): (t: seq<Effect>)
    ensures hasButton ==> |t| == |body| + 2 && t[0] == DisableBtn && t[|t| - 1] == RestoreBtn
                          && t[1..|t| - 1] == body
    ensures !hasButton ==> t == body
  {
    if hasButton then [DisableBtn] + body + [RestoreBtn] else body
  }

  /** The handler once the validation outcome, the contact and the campaign
      values are known. */
  function Flow(hasButton: bool, v: Validation.Outcome, c: Contact, utm: Campaign,
                landingPage: string, net: Replies): (t: seq<Effect>)
    ensures hasButton ==> |t| >= 2 && t[0] == DisableBtn && t[|t| - 1] == RestoreBtn
                          && NoButtonEffects(t[1..|t| - 1])
    ensures !hasButton ==> NoButtonEffects(t)
    ensures !v.ok ==> forall i :: 0 <= i < |t| ==>
                        t[i].DisableBtn? || t[i].RestoreBtn? || t[i] == Alert(Validation.TermsAlert)
    ensures v.ok && v.alerts == 0 ==>
              AlertsOnly(t, FailureAlert) && RedirectsOnlyTo(t, ThankYouPage)
  {
    var body := TermsAlerts(v.alerts) + (if v.ok then Exchange(c, utm, landingPage, net) else []);
    assert NoButtonEffects(body);
    Bracket(hasButton, body)
  }

  /** `handleFormSubmit(event, formType)`, with `iti` the widget chosen by
      `formType` and `hasButton` whether the form has a `.submit-btn`. The
      lead is built only after validation succeeded. */
  function Submit(f: Validation.Form, iti: Option<Phone.Widget>, hasButton: bool,
                  page: Page, net: Replies): (t: seq<Effect>)
    ensures hasButton ==> |t| >= 2 && t[0] == DisableBtn && t[|t| - 1] == RestoreBtn
                          && NoButtonEffects(t[1..|t| - 1])
    ensures !hasButton ==> NoButtonEffects(t)
    ensures !Validation.Validate(f, iti).ok ==>
              forall i :: 0 <= i < |t| ==>
                t[i].DisableBtn? || t[i].RestoreBtn? || t[i] == Alert(Validation.TermsAlert)
    ensures Validation.Validate(f, iti).ok ==>
              AlertsOnly(t, FailureAlert) && RedirectsOnlyTo(t, ThankYouPage)
  {
    Flow(hasButton, Validation.Validate(f, iti), ContactOf(f, iti),
         ReadCampaign(page.query), page.landingPage, net)
  }

  function ContactOf(f: Validation.Form, iti: Option<Phone.Widget>): Contact {
    Contact(TrimmedOrEmpty(f.name), TrimmedOrEmpty(f.email), FormattedNumber(iti, f.phone))
  }

  /** The contact sent to the CRMs is built only from a form that passed
      validation, so it carries what validation checked: a non-blank trimmed
      name, a well-formed trimmed address and the widget's non-empty number. */
  lemma ContactOfValidForm(f: Validation.Form, iti: Option<Phone.Widget>)
    requires Validation.Validate(f, iti).ok
    ensures var c := ContactOf(f, iti);
            && c.name != [] && !IsSpace(c.name[0]) && !IsSpace(c.name[|c.name| - 1])
            && Email.WellFormed(c.email) && NoSpace(c.email)
            && iti.Some? && c.phone == iti.value.number && c.phone != ""
  {
    TrimEmptyIff(f.name.value.value);
  }

  // ---------------------------------------------------------------------
  // Observations of a trace

  /** The progress steps: lookup, first post, second post, redirect. */
  datatype Step = Ip | A | B | Go

  /** The progress steps of a trace, in order. */
  function Steps(t: seq<Effect>): (r: seq<Step>)
    ensures |r| <= |t|
  {
    if t == [] then []
    else
      var rest := Steps(t[1..]);
      match t[0]
      case IpLookup => [Ip] + rest
      case PostA(_) => [A] + rest
      case PostB(_) => [B] + rest
      case Redirect(_) => [Go] + rest
      case _ => rest
  }

  lemma {:induction false} StepsAppend(x: seq<Effect>, y: seq<Effect>)
    ensures Steps(x + y) == Steps(x) + Steps(y)
  {
    if x == [] {
      assert x + y == y;
    } else {
      assert (x + y)[1..] == x[1..] + y;
      StepsAppend(x[1..], y);
    }
  }

  /** How many alerts are shown, whatever their message. */
  function Alerts(t: seq<Effect>): (n: nat)
    ensures n <= |t|
    ensures n == 0 <==> forall i :: 0 <= i < |t| ==> !t[i].Alert?
  {
    if t == [] then 0
    else
      var n := (if t[0].Alert? then 1 else 0) + Alerts(t[1..]);
      assert forall i :: 0 < i < |t| ==> t[i] == t[1..][i - 1];
      n
  }

  lemma {:induction false} AlertsAppend(x: seq<Effect>, y: seq<Effect>)
    ensures Alerts(x + y) == Alerts(x) + Alerts(y)
  {
    if x == [] {
      assert x + y == y;
    } else {
      assert (x + y)[1..] == x[1..] + y;
      AlertsAppend(x[1..], y);
    }
  }

  /** The alerts `validate` showed are alerts and nothing else. */
  lemma {:induction false} TermsAlertsQuiet(n: nat)
    ensures Steps(TermsAlerts(n)) == [] && Alerts(TermsAlerts(n)) == n
  {
    if n > 0 {
      assert TermsAlerts(n)[1..] == TermsAlerts(n - 1);
      TermsAlertsQuiet(n - 1);
    }
  }

  /** Reference definition of the progress a submission makes: the steps up
      to and including the first call that rejects; all four when none does. */
  function Reached(net: Replies): (r: seq<Step>)
    ensures 1 <= |r| <= 4 && r == [Ip, A, B, Go][..|r|]
  {
    var n := if net.ip.IpFailed? then 1 else if !net.postA then 2 else if !net.postB then 3 else 4;
    [Ip, A, B, Go][..n]
  }

  predicate AllSettle(net: Replies) {
    net.ip.IpAnswered? && net.postA && net.postB
  }

  /** The redirect is reached exactly when every call settles; a rejected
      second post comes after both posts were sent. */
  lemma ReachedCases(net: Replies)
    ensures Go in Reached(net) <==> AllSettle(net)
    ensures net.ip.IpFailed? ==> Reached(net) == [Ip]
    ensures net.ip.IpAnswered? && net.postA && !net.postB ==> Reached(net) == [Ip, A, B]
  {
    var all := [Ip, A, B, Go];
    assert all[..1] == [Ip] && all[..2] == [Ip, A] && all[..3] == [Ip, A, B] && all[..4] == all;
  }

  lemma ExchangeProgress(c: Contact, utm: Campaign, lp: string, net: Replies)
    ensures Steps(Exchange(c, utm, lp, net)) == Reached(net)
    ensures Alerts(Exchange(c, utm, lp, net)) == if AllSettle(net) then 0 else 1
  {
    var t := Exchange(c, utm, lp, net);
    var rest := t[1..];
    assert t == [IpLookup] + rest;
    assert Steps([IpLookup]) == [Ip] && Alerts([IpLookup]) == 0;
    StepsAppend([IpLookup], rest);
    AlertsAppend([IpLookup], rest);
    match net.ip
    case IpFailed =>
      assert rest == [Alert(FailureAlert)];
    case IpAnswered(ip) =>
      PostsProgress(c, utm, lp, ip, net);
  }

  /** What follows an answered lookup: the first post, then the second post
      when the first settled, then the redirect when both settled. */
  lemma PostsProgress(c: Contact, utm: Campaign, lp: string, ip: Option<string>, net: Replies)
    requires net.ip == IpAnswered(ip)
    ensures var rest := Exchange(c, utm, lp, net)[1..];
            && Steps(rest) == (if !net.postA then [A] else if !net.postB then [A, B] else [A, B, Go])
            && Alerts(rest) == if AllSettle(net) then 0 else 1
  {
    var fail := [Alert(FailureAlert)];
    var a := [PostA(BuildLeadA(c, utm))];
    var b := [PostB(BuildLeadB(c, utm, lp, VisitorIp(ip)))];
    var go := [Redirect(ThankYouPage)];
    assert Steps(fail) == [] && Alerts(fail) == 1;
    assert Steps(a) == [A] && Alerts(a) == 0;
    assert Steps(b) == [B] && Alerts(b) == 0;
    assert Steps(go) == [Go] && Alerts(go) == 0;
    var tail := if !net.postB then fail else go;
    var afterA := if !net.postA then fail else b + tail;
    StepsAppend(b, tail);
    AlertsAppend(b, tail);
    StepsAppend(a, afterA);
    AlertsAppend(a, afterA);
    assert Exchange(c, utm, lp, net)[1..] == a + afterA;
  }

  lemma FlowProgress(hasButton: bool, v: Validation.Outcome, c: Contact, utm: Campaign,
                     lp: string, net: Replies)
    requires v.ok ==> v.alerts == 0
    ensures var t := Flow(hasButton, v, c, utm, lp, net);
            && (!v.ok ==> Steps(t) == [] && Alerts(t) == v.alerts)
            && (v.ok ==> Steps(t) == Reached(net)
                         && Alerts(t) == if AllSettle(net) then 0 else 1)
  {
    var t := Flow(hasButton, v, c, utm, lp, net);
    if !v.ok {
      assert t == Bracket(hasButton, TermsAlerts(v.alerts));
      TermsAlertsQuiet(v.alerts);
      BracketQuiet(hasButton, TermsAlerts(v.alerts));
    } else {
      var x := Exchange(c, utm, lp, net);
      assert TermsAlerts(v.alerts) + x == x;
      ExchangeProgress(c, utm, lp, net);
      BracketQuiet(hasButton, x);
    }
  }

  /** The button effects around a trace add no progress and no alert. */
  lemma BracketQuiet(hasButton: bool, body: seq<Effect>)
    ensures Steps(Bracket(hasButton, body)) == Steps(body)
    ensures Alerts(Bracket(hasButton, body)) == Alerts(body)
  {
    if hasButton {
      assert Steps([DisableBtn]) == [] && Alerts([DisableBtn]) == 0;
      assert Steps([RestoreBtn]) == [] && Alerts([RestoreBtn]) == 0;
      StepsAppend([DisableBtn], body);
      StepsAppend([DisableBtn] + body, [RestoreBtn]);
      AlertsAppend([DisableBtn], body);
      AlertsAppend([DisableBtn] + body, [RestoreBtn]);
    }
  }

  /** A rejected form makes no progress and shows no failure alert. A valid
      one makes exactly the progress of `Reached` — lookup, first post,
      second post, redirect, in that order, cut after the first rejection —
      and shows the failure alert exactly once when something rejected. */
  lemma SubmitProgress(f: Validation.Form, iti: Option<Phone.Widget>, hasButton: bool,
                       page: Page, net: Replies)
    ensures var t := Submit(f, iti, hasButton, page, net);
            var ok := Validation.Validate(f, iti).ok;
            && (!ok ==> Steps(t) == [] && Alerts(t) == Validation.Validate(f, iti).alerts)
            && (ok ==> Steps(t) == Reached(net)
                       && Alerts(t) == if AllSettle(net) then 0 else 1)
  {
    FlowProgress(hasButton, Validation.Validate(f, iti), ContactOf(f, iti),
                 ReadCampaign(page.query), page.landingPage, net);
  }

  /** The thank-you page is reached exactly when the form is valid and all
      three calls settle. */
  lemma RedirectIff(f: Validation.Form, iti: Option<Phone.Widget>, hasButton: bool,
                    page: Page, net: Replies)
    ensures Go in Steps(Submit(f, iti, hasButton, page, net))
            <==> Validation.Validate(f, iti).ok && AllSettle(net)
    ensures Validation.Validate(f, iti).ok ==>
              RedirectsOnlyTo(Submit(f, iti, hasButton, page, net), ThankYouPage)
  {
    SubmitProgress(f, iti, hasButton, page, net);
    ReachedCases(net);
  }

  /** The partial-submission hazard: when the second post rejects after the
      first settled, the first CRM already has the lead, and the user sees
      the same single alert as for any other failure. */
  lemma PartialSubmission(f: Validation.Form, iti: Option<Phone.Widget>, hasButton: bool,
                          page: Page, net: Replies)
    requires Validation.Validate(f, iti).ok
    requires net.ip.IpAnswered? && net.postA && !net.postB
    ensures var t := Submit(f, iti, hasButton, page, net);
            Steps(t) == [Ip, A, B] && Alerts(t) == 1 && AlertsOnly(t, FailureAlert)
  {
    SubmitProgress(f, iti, hasButton, page, net);
    ReachedCases(net);
  }

  /** A failed IP lookup stops the submission before either post, although
      the first lead does not carry the address. */
  lemma IpFailureStopsBothPosts(f: Validation.Form, iti: Option<Phone.Widget>, hasButton: bool,
                                page: Page, net: Replies)
    requires Validation.Validate(f, iti).ok && net.ip.IpFailed?
    ensures var t := Submit(f, iti, hasButton, page, net);
            Steps(t) == [Ip] && Alerts(t) == 1 && AlertsOnly(t, FailureAlert)
  {
    SubmitProgress(f, iti, hasButton, page, net);
    ReachedCases(net);
  }

  /** When the lookup and the first post settle, both leads are posted, the
      first before the second. */
  lemma FlowPostsBoth(hasButton: bool, v: Validation.Outcome, c: Contact, utm: Campaign,
                      lp: string, net: Replies)
    requires v.ok && v.alerts == 0 && net.ip.IpAnswered? && net.postA
    ensures var t := Flow(hasButton, v, c, utm, lp, net);
            exists i, j :: 0 <= i < j < |t| && t[i] == PostA(BuildLeadA(c, utm))
                           && t[j] == PostB(BuildLeadB(c, utm, lp, VisitorIp(net.ip.ip)))
  {
    var x := Exchange(c, utm, lp, net);
    var t := Flow(hasButton, v, c, utm, lp, net);
    assert TermsAlerts(v.alerts) == [];
    assert x[1] == PostA(BuildLeadA(c, utm));
    assert x[2] == PostB(BuildLeadB(c, utm, lp, VisitorIp(net.ip.ip)));
    var k := if hasButton then 1 else 0;
    assert t[k + 1] == x[1] && t[k + 2] == x[2];
  }

  /** With no query string, the leads carry the four fallback values. */
  lemma FallbackCampaign(f: Validation.Form, iti: Option<Phone.Widget>, hasButton: bool,
                         lp: string, net: Replies)
    requires Validation.Validate(f, iti).ok && net.ip.IpAnswered? && net.postA
    ensures var t := Submit(f, iti, hasButton, Page([], lp), net);
            exists i, j :: 0 <= i < j < |t| && t[i].PostA? && t[j].PostB?
              && t[i].a.source == SourceFallback
              && t[j].b.leadSource == SourceFallback
              && t[j].b.campaignName == CampaignFallback
              && t[j].b.adName == ContentFallback
              && t[j].b.keyword == KeywordFallback
  {
    var v := Validation.Validate(f, iti);
    var c := ContactOf(f, iti);
    var utm := ReadCampaign([]);
    FlowPostsBoth(hasButton, v, c, utm, lp, net);
    var t := Submit(f, iti, hasButton, Page([], lp), net);
    assert t == Flow(hasButton, v, c, utm, lp, net);
    var i, j :| 0 <= i < j < |t| && t[i] == PostA(BuildLeadA(c, utm))
                && t[j] == PostB(BuildLeadB(c, utm, lp, VisitorIp(net.ip.ip)));
    assert t[i].a.source == SourceFallback;
  }

  // ---------------------------------------------------------------------
  // The submit button

  datatype Button = Button(disabled: bool, text: string)

  const Ready := Button(false, "Submit Form")
  const Busy := Button(true, "Submitting...")

  function Apply(b: Button, e: Effect): Button {
    match e
    case DisableBtn => Busy
    case RestoreBtn => Ready
    case _ => b
  }

  /** The button after the effects of `t`, starting from `b`. */
  function Replay(b: Button, t: seq<Effect>): Button
    decreases |t|
  {
    if t == [] then b else Replay(Apply(b, t[0]), t[1..])
  }

  lemma {:induction false} ReplayAppend(b: Button, x: seq<Effect>, y: seq<Effect>)
    ensures Replay(b, x + y) == Replay(Replay(b, x), y)
    decreases |x|
  {
    if x == [] {
      assert x + y == y;
    } else {
      assert (x + y)[1..] == x[1..] + y;
      ReplayAppend(Apply(b, x[0]), x[1..], y);
    }
  }

  /** Effects that neither disable nor restore leave the button alone. */
  lemma {:induction false} ReplayKeeps(b: Button, t: seq<Effect>)
    requires NoButtonEffects(t)
    ensures Replay(b, t) == b
    decreases |t|
  {
    if t != [] {
      ReplayKeeps(b, t[1..]);
    }
  }

  /** A trace that disables first, restores last and touches the button
      nowhere else keeps it disabled in between and leaves it ready. */
  lemma BracketedButton(t: seq<Effect>, b0: Button)
    requires |t| >= 2 && t[0] == DisableBtn && t[|t| - 1] == RestoreBtn
    requires NoButtonEffects(t[1..|t| - 1])
    ensures Replay(b0, t) == Ready
    ensures forall k :: 1 <= k < |t| ==> Replay(b0, t[..k]) == Busy
  {
    var mid := t[1..|t| - 1];
    assert t == [DisableBtn] + mid + [RestoreBtn];
    ReplayAppend(b0, [DisableBtn] + mid, [RestoreBtn]);
    forall k | 1 <= k < |t| ensures Replay(b0, t[..k]) == Busy {
      assert t[..k] == [DisableBtn] + mid[..k - 1];
      assert NoButtonEffects(mid[..k - 1]);
      ReplayAppend(b0, [DisableBtn], mid[..k - 1]);
      ReplayKeeps(Busy, mid[..k - 1]);
    }
  }

  /** With a button, the handler keeps it disabled from its first effect to
      its last (no second submission can start meanwhile) and always leaves
      it enabled and labelled "Submit Form", whatever the validation and the
      network did. */
  lemma ButtonHeldThenRestored(f: Validation.Form, iti: Option<Phone.Widget>,
                               page: Page, net: Replies, b0: Button)
    ensures var t := Submit(f, iti, true, page, net);
            && Replay(b0, t) == Ready
            && forall k :: 1 <= k < |t| ==> Replay(b0, t[..k]) == Busy
  {
    BracketedButton(Submit(f, iti, true, page, net), b0);
  }
}

=== FILE: text.dfy ===
/** The string primitives the script relies on: the ECMAScript whitespace
    class (`\s`, `String.prototype.trim`), the digit class (`\d`, `\D`),
    prefixes and occurrence counts. Strings are sequences of characters. */
module Text {

  /** ECMAScript WhiteSpace and LineTerminator code points. The regular
      expression class `\s` matches exactly these, and `trim` strips exactly
      these from both ends. */
  predicate IsSpace(c: char) {
    var n := c as int;
    || n == 0x09 || n == 0x0A || n == 0x0B || n == 0x0C || n == 0x0D
    || n == 0x20 || n == 0xA0 || n == 0x1680
    || (0x2000 <= n && n <= 0x200A)
    || n == 0x2028 || n == 0x2029 || n == 0x202F || n == 0x205F
    || n == 0x3000 || n == 0xFEFF
  }

  /** The class `\d`: ASCII digits only. */
  predicate IsDigit(c: char) {
    '0' <= c <= '9'
  }

  predicate NoSpace(s: string) {
    forall i :: 0 <= i < |s| ==> !IsSpace(s[i])
  }

  predicate AllSpace(s: string) {
    forall i :: 0 <= i < |s| ==> IsSpace(s[i])
  }

  predicate AllDigits(s: string) {
    forall i :: 0 <= i < |s| ==> IsDigit(s[i])
  }

  predicate IsPrefix(p: string, s: string) {
    |p| <= |s| && s[..|p|] == p
  }

  /** Trailing whitespace removed. */
  function TrimEnd(s: string): (r: string)
    ensures |r| <= |s| && r == s[..|r|]
    ensures AllSpace(s[|r|..])
    ensures r == [] || !IsSpace(r[|r| - 1])
  {
    if |s| > 0 && IsSpace(s[|s| - 1]) then TrimEnd(s[..|s| - 1]) else s
  }

  /** How many whitespace characters `trim` strips from the front. */
  function LeadingSpace(s: string): (k: nat)
    ensures k <= |s| && AllSpace(s[..k])
    ensures k < |s| ==> !IsSpace(s[k])
  {
    if |s| > 0 && IsSpace(s[0]) then
      var k := 1 + LeadingSpace(s[1..]);
      assert s[..k] == [s[0]] + s[1..][..k - 1];
      k
    else 0
  }

  /** `String.prototype.trim`: the infix of `s` left after whitespace is
      stripped from both ends. */
  function Trim(s: string): (r: string)
    ensures LeadingSpace(s) + |r| <= |s|
    ensures r == s[LeadingSpace(s)..LeadingSpace(s) + |r|]
    ensures AllSpace(s[LeadingSpace(s) + |r|..])
    ensures r == [] || (!IsSpace(r[0]) && !IsSpace(r[|r| - 1]))
  {
    var k := LeadingSpace(s);
    var r := TrimEnd(s[k..]);
    assert s[k + |r|..] == s[k..][|r|..];
    r
  }

  /** A trimmed string is empty exactly when the input was all whitespace:
      the name check rejects a name made only of blanks and nothing else. */
  lemma TrimEmptyIff(s: string)
    ensures Trim(s) == [] <==> AllSpace(s)
  {
    var r := Trim(s);
    var k := LeadingSpace(s);
    if r == [] {
      assert s[..k] == s;
    } else {
      assert s[k] == r[0];
    }
  }

  /** A string with no whitespace is its own trim. */
  lemma TrimNoSpace(s: string)
    requires NoSpace(s)
    ensures Trim(s) == s
  {
    if s != [] {
      assert LeadingSpace(s) == 0;
      assert s[0..] == s;
      assert TrimEnd(s) == s;
    }
  }

  /** `replace(/\D/g, '')`: the digits of `s`, in order. */
  function Digits(s: string): (r: string)
    ensures AllDigits(r)
    ensures |r| <= |s|
    ensures AllDigits(s) ==> r == s
  {
    if s == [] then []
    else if IsDigit(s[0]) then [s[0]] + Digits(s[1..])
    else Digits(s[1..])
  }

  lemma {:induction false} DigitsAppend(a: string, b: string)
    ensures Digits(a + b) == Digits(a) + Digits(b)
  {
    if a == [] {
      assert a + b == b;
    } else {
      assert (a + b)[1..] == a[1..] + b;
      DigitsAppend(a[1..], b);
    }
  }

  /** `replace(/\D/g, '')` keeps every digit: each digit occurs in the result
      as often as in the input. */
  lemma {:induction false} DigitsKeepsDigits(s: string)
    ensures forall c :: IsDigit(c) ==> Count(Digits(s), c) == Count(s, c)
  {
    if s != [] {
      DigitsKeepsDigits(s[1..]);
      if IsDigit(s[0]) {
        assert ([s[0]] + Digits(s[1..]))[1..] == Digits(s[1..]);
      }
    }
  }

  /** Number of occurrences of `c` in `s`. */
  function Count(s: string, c: char): (n: nat)
    ensures n <= |s|
    ensures n == 0 <==> forall i :: 0 <= i < |s| ==> s[i] != c
  {
    if s == [] then 0
    else (if s[0] == c then 1 else 0) + Count(s[1..], c)
  }

  lemma {:induction false} CountAppend(a: string, b: string, c: char)
    ensures Count(a + b, c) == Count(a, c) + Count(b, c)
  {
    if a == [] {
      assert a + b == b;
    } else {
      assert (a + b)[1..] == a[1..] + b;
      CountAppend(a[1..], b, c);
    }
  }

  /** A character that occurs once in `s` occurs at no index but `k`. */
  lemma CountOneUnique(s: string, c: char, k: nat)
    requires k < |s| && s[k] == c && Count(s, c) == 1
    ensures forall m :: 0 <= m < |s| && m != k ==> s[m] != c
  {
    assert s == s[..k] + [s[k]] + s[k + 1..];
    CountAppend(s[..k] + [s[k]], s[k + 1..], c);
    CountAppend(s[..k], [s[k]], c);
    forall m | 0 <= m < |s| && m != k ensures s[m] != c {
      if m < k {
        assert s[m] == s[..k][m];
      } else {
        assert s[m] == s[k + 1..][m - k - 1];
      }
    }
  }
}

=== FILE: validation.dfy ===
/** The form validator `validate(form, iti)` and its helper `markError`: all
    earlier markers are cleared, then four independent checks run in order
    (name, e-mail, terms, phone), each of which may mark its field, and the
    result is true only when none failed. */
module Validation {
  import opened Wrappers
  import opened Text
  import opened Markers
  import Email
  import Phone

  /** A form input and whether its parent holds an `.error-text` element. */
  datatype Field = Field(value: string, hasErrorText: bool)

  /** What the page shows for one field: its validity class and the text of
      its error element (empty when cleared or when there is no element). */
  datatype FieldMark = FieldMark(marker: Marker, message: string)

  datatype Marks = Marks(name: FieldMark, email: FieldMark, phone: FieldMark)

  /** The form at submit time. A field the form lacks is None; `terms` is the
      checkbox's `checked`. `marks` is what an earlier run left on the page. */
  datatype Form = Form(
    name: Option<Field>,
    email: Option<Field>,
    phone: Option<Field>,
    terms: Option<bool>,
    marks: Marks)

  /** The return value, the markers on the page afterwards, and how many
      blocking alerts were shown. */
  datatype Outcome = Outcome(ok: bool, marks: Marks, alerts: nat)

  const NameRequired := "Name is required"
  const EmailRequired := "Valid email required"
  const PhoneRequired := "Phone number required"
  const PhoneInvalid := "Invalid phone number for selected country"
  const TermsAlert := "Please accept Terms and Conditions"

  const Blank := FieldMark(Unmarked, "")

  /** `markError(input, message)`: `is-invalid` added, the message written if
      the error element exists. */
  function MarkError(f: Field, message: string): (m: FieldMark)
    ensures m.marker == Invalid
    ensures m.message == message <==> f.hasErrorText || message == ""
  {
    FieldMark(Invalid, if f.hasErrorText then message else "")
  }

  /** The requirements each check imposes, stated on the form alone. */

  predicate NameGiven(f: Form) {
    f.name.Some? && !AllSpace(f.name.value.value)
  }

  predicate EmailGiven(f: Form) {
    f.email.Some? && Email.WellFormed(Trim(f.email.value.value))
  }

  predicate TermsAccepted(f: Form) {
    f.terms == Some(true)
  }

  predicate PhoneGiven(f: Form, iti: Option<Phone.Widget>) {
    f.phone.Some? && iti.Some? && iti.value.number != "" && iti.value.valid
  }

  /** Step 0: every marker and error text in the form emptied. */
  function Reset(m: Marks): Marks {
    Marks(Blank, Blank, Blank)
  }

  /** Each check below touches `ok`, its own field's marker and, for the
      terms, the alert count; nothing else. */

  function CheckName(s: Outcome, f: Form): (r: Outcome)
    ensures r.ok == (s.ok && NameGiven(f)) && r.alerts == s.alerts
    ensures r.marks == s.marks.(name := if f.name.Some? && !NameGiven(f)
                                        then MarkError(f.name.value, NameRequired)
                                        else s.marks.name)
  {
    if f.name.None? then s.(ok := false)
    else
      TrimEmptyIff(f.name.value.value);
      if Trim(f.name.value.value) == "" then
        s.(ok := false, marks := s.marks.(name := MarkError(f.name.value, NameRequired)))
      else s
  }

  function CheckEmail(s: Outcome, f: Form): (r: Outcome)
    ensures r.ok == (s.ok && EmailGiven(f)) && r.alerts == s.alerts
    ensures r.marks == s.marks.(email := if f.email.Some? && !EmailGiven(f)
                                          then MarkError(f.email.value, EmailRequired)
                                          else s.marks.email)
  {
    var email := if f.email.Some? then Trim(f.email.value.value) else "";
    Email.MatchesPatternIff(email);
    if f.email.None? then s.(ok := false)
    else if !Email.MatchesPattern(email) then
      s.(ok := false, marks := s.marks.(email := MarkError(f.email.value, EmailRequired)))
    else s
  }

  function CheckTerms(s: Outcome, f: Form): (r: Outcome)
    ensures r.ok == (s.ok && TermsAccepted(f)) && r.marks == s.marks
    ensures r.alerts == s.alerts + (if TermsAccepted(f) then 0 else 1)
  {
    if f.terms.None? || !f.terms.value then s.(ok := false, alerts := s.alerts + 1)
    else s
  }

  function CheckPhone(s: Outcome, f: Form, iti: Option<Phone.Widget>): (r: Outcome)
    ensures r.ok == (s.ok && PhoneGiven(f, iti)) && r.alerts == s.alerts
    ensures r.marks.name == s.marks.name && r.marks.email == s.marks.email
    ensures f.phone.None? ==> r.marks.phone == s.marks.phone
    ensures f.phone.Some? && (iti.None? || iti.value.number == "") ==>
              r.marks.phone == MarkError(f.phone.value, PhoneRequired)
    ensures f.phone.Some? && iti.Some? && iti.value.number != "" && !iti.value.valid ==>
              r.marks.phone == MarkError(f.phone.value, PhoneInvalid)
    ensures PhoneGiven(f, iti) ==> r.marks.phone == FieldMark(Valid, "")
  {
    var fullNum := if iti.Some? then iti.value.number else "";
    if f.phone.None? || fullNum == "" then
      if f.phone.Some? then
        s.(ok := false, marks := s.marks.(phone := MarkError(f.phone.value, PhoneRequired)))
      else s.(ok := false)
    else if !iti.value.valid then
      s.(ok := false, marks := s.marks.(phone := MarkError(f.phone.value, PhoneInvalid)))
    else
      s.(marks := s.marks.(phone := FieldMark(Valid, "")))
  }

  /** `validate(form, iti)`. */
  function Validate(f: Form, iti: Option<Phone.Widget>): (r: Outcome)
    ensures r.ok <==> NameGiven(f) && EmailGiven(f) && TermsAccepted(f) && PhoneGiven(f, iti)
    ensures r.alerts == if TermsAccepted(f) then 0 else 1
    // name: marked only when present and blank
    ensures r.marks.name == (if f.name.Some? && !NameGiven(f)
                             then MarkError(f.name.value, NameRequired) else Blank)
    // e-mail: marked only when present and malformed
    ensures r.marks.email == (if f.email.Some? && !EmailGiven(f)
                              then MarkError(f.email.value, EmailRequired) else Blank)
    // phone: three outcomes, decided by the phone field and the widget alone
    ensures f.phone.None? ==> r.marks.phone == Blank
    ensures f.phone.Some? && (iti.None? || iti.value.number == "") ==>
              r.marks.phone == MarkError(f.phone.value, PhoneRequired)
    ensures f.phone.Some? && iti.Some? && iti.value.number != "" && !iti.value.valid ==>
              r.marks.phone == MarkError(f.phone.value, PhoneInvalid)
    ensures PhoneGiven(f, iti) ==> r.marks.phone == FieldMark(Valid, "")
  {
    var s0 := Outcome(true, Reset(f.marks), 0);
    CheckPhone(CheckTerms(CheckEmail(CheckName(s0, f), f), f), f, iti)
  }

  /** Markers left by an earlier run never survive: the outcome depends only
      on the field values, the checkbox and the widget. */
  lemma ValidateForgetsEarlierMarks(f: Form, iti: Option<Phone.Widget>, m: Marks)
    ensures Validate(f.(marks := m), iti) == Validate(f, iti)
  {
  }

  /** An unchecked box is reported by one alert and never by an inline
      marker: the markers are the same whatever the checkbox says. */
  lemma TermsOnlyAlerts(f: Form, iti: Option<Phone.Widget>, t: Option<bool>)
    ensures Validate(f.(terms := t), iti).marks == Validate(f, iti).marks
  {
  }

  /** Every check runs even after an earlier one failed: a blank name does
      not stop the other three fields being marked. */
  lemma ChecksAreIndependent(f: Form, iti: Option<Phone.Widget>, name: Option<Field>)
    ensures var a := Validate(f, iti);
            var b := Validate(f.(name := name), iti);
            a.marks.email == b.marks.email && a.marks.phone == b.marks.phone
            && a.alerts == b.alerts
  {
  }

  /** A valid result leaves no invalid marker anywhere and the phone marked
      valid; a failed one is explained by a marker or an alert, unless the
      failing field is missing from the form. */
  lemma ValidateExplained(f: Form, iti: Option<Phone.Widget>)
    ensures var r := Validate(f, iti);
            && (r.ok ==> r.alerts == 0 && r.marks.name.marker == Unmarked
                         && r.marks.email.marker == Unmarked && r.marks.phone.marker == Valid)
            && (!r.ok && f.name.Some? && f.email.Some? && f.phone.Some? ==>
                  r.alerts > 0 || r.marks.name.marker == Invalid
                  || r.marks.email.marker == Invalid || r.marks.phone.marker == Invalid)
  {
  }
}

=== FILE: wrappers.dfy ===
/** Optional values: a DOM lookup that may find nothing, a query parameter
    that may be absent, a JSON field that may be missing. */
module Wrappers {

  datatype Option<+T> = None | Some(value: T)
}
